=== FILE: README.md ===
# Doctor booking core, modelled in Dafny

This project models the logic of a medical appointment booking front end.
The front end runs against a mock back end. The model covers five parts:

- the mock back end: its static specialty and doctor tables, the per-day slot generator, the doctor queries, and the appointment creation that assigns an id;
- the doctor list page: its filter state, the spread merge that applies the sidebar's partial updates, and the gender and availability test over the fetched doctors;
- the simplified calendar: its slot template, the slots it shows for a day, the date picker handler, and what a slot click reports;
- the booking form: its validation schema and submit guard, how the form data becomes the record sent to the back end (start string and end time), and the outcome of a press on the submit button;
- the appointments page as a three-tab wizard (select, calendar, form), plus the API client's `setAuthToken` update of its shared headers.

Modules:

- `Time`: ECMAScript's time value arithmetic over integer milliseconds. The `Day`/`HourFromTime` field functions, `MakeTime`/`MakeDate`, and `setHours`/`setMinutes`, with the round-trip lemmas the rest needs.
- `ClockText`: `split`, `Number` on digit strings, and the "HH:mm" clock format and its parse.
- `Seqs`: `Array.filter` and `Array.find`.
- `Types`: the entities (specialty, doctor, availability slot, status) and JavaScript truthiness of an id and a string.
- `MockData`: the mock back end.
- `Filters`: the doctor list page and the filter sidebar.
- `Calendar`: the simplified calendar.
- `Booking`: the form, the mutation and the end-to-end submission.
- `Wizard`: the appointments page.
- `AuthHeaders`: the API client's headers.

The modelling choices:

- **Time.** A `Date` is an integer millisecond count with a time-zone offset of 0. `Invalid Date` (a NaN time value) is the `Invalid` case of `JsDate`.
- **Randomness.** `Math.random()` is a parameter. The slot generators take a function from slot position to a real number; the position stands for the draw made for that slot. The creation of an appointment takes its single draw.
- **Current time and ISO text.** `new Date()` is the parameter `now`. The `toISOString()` text whose date part prefixes the booked start time is an opaque `iso` string parameter.
- **Email check.** The schema's email check is a predicate parameter.

## Model

| member | source | states |
|---|---|---|
| MockData.TablesConsistent | src/mockData.ts:5-64 | Ids are distinct in both tables, and every doctor embeds a specialty of the table whose id is the doctor's `specialtyId` |
| MockData.GenerateAvailabilities | src/mockData.ts:67-94 | Twelve slots numbered 1..12 for the given doctor. Slot k starts on the given day at hour `startHours[k/2]` and minute 0 or 30, with zero seconds and milliseconds. Each lasts exactly 30 minutes. Starts strictly ascend. Slot k is free exactly when its draw exceeds 0.3 |
| MockData.GetDoctors | src/mockData.ts:99-105 | With a truthy specialty id, exactly the table's doctors of that specialty, in table order, each as many times as it occurs in the table. With none or 0, the whole table |
| MockData.GetDoctorsGeneralPractice | src/mockData.ts:99-105 | On the static table, specialty 1 yields doctors 1 and 2 in that order |
| MockData.GetDoctor | src/mockData.ts:106-109 | The first doctor carrying the id. None exactly when no doctor carries it |
| MockData.GetDoctorExamples | src/mockData.ts:106-109 | On the static table, doctor 3 is found and doctor 7 is not |
| MockData.CreateAppointment | src/mockData.ts:113-119 | The new id lies in 1..1000 for any draw in [0,1). The submitted record is returned unchanged beside it |
| Seqs.FilterIsSubseq | src/pages/DoctorsListPage.tsx:33-38 | `filter` keeps a subsequence of its input: order is preserved and nothing is invented |
| Seqs.FilterMembers | src/pages/DoctorsListPage.tsx:33-38 | An element is in the filtered list exactly when it is in the input and passes the test |
| Seqs.FilterMultiplicity | src/pages/DoctorsListPage.tsx:33-38 | Each passing element occurs in the result as many times as in the input, and a failing one not at all |
| Seqs.FilterFuse | src/pages/DoctorsListPage.tsx:33-38 | Filtering an already filtered list equals one filter by both tests |
| Seqs.FilterAll | src/pages/DoctorsListPage.tsx:33-38 | A test every element passes leaves the list unchanged |
| Seqs.FindFirst | src/mockData.ts:107 | `find` returns the element at the first position that matches, and None only when no element matches |
| Filters.Merge | src/pages/DoctorsListPage.tsx:24-26 | Keys the update carries take the update's value, including an explicit null. Every other key keeps its previous value |
| Filters.MergeNoChange | src/pages/DoctorsListPage.tsx:24-26 | Merging an empty update is the identity |
| Filters.MergeTwice | src/pages/DoctorsListPage.tsx:24-26 | Two successive merges equal one merge of the combined update, where the later update wins. The combined update carries the union of the keys |
| Filters.FilteredDoctors | src/pages/DoctorsListPage.tsx:33-38 | The filtered list is an order-preserving sub-list. Its doctors match the chosen gender and availability criterion. Every fetched doctor meeting all chosen criteria is kept, as many times as it was fetched |
| Filters.NoCriteriaShowsAll | src/pages/DoctorsListPage.tsx:33-38 | With neither gender nor availability chosen, the fetched list is shown whole and in order |
| Filters.Listed | src/pages/DoctorsListPage.tsx:19-38 | A doctor is listed exactly when it is in the table, passes the gender and availability test, and belongs to the chosen specialty when a truthy one is chosen. With one, the list keeps table order and each doctor's number of occurrences. Without one, the whole table is filtered |
| Filters.ListedInTableOrder | src/pages/DoctorsListPage.tsx:19-38 | Fetching by a truthy specialty and then filtering gives a sub-list of the table, in table order. Each doctor of that specialty that passes the test occurs as often as in the table |
| Filters.InitialListsEverything | src/pages/DoctorsListPage.tsx:19-38 | From the empty initial filter, the page lists the whole static table |
| Filters.SpecialtyClicked | src/components/SpecialtyFilterSidebar.tsx:24-29 | The update touches only the specialty key. It clears the specialty when the clicked one is already selected and selects it otherwise |
| Filters.SpecialtyClickTwice | src/components/SpecialtyFilterSidebar.tsx:24-29 | From no specialty or the same specialty, two clicks on one specialty return to the starting state |
| Filters.FreeClicked | src/components/SpecialtyFilterSidebar.tsx:82 | The "free" button touches only availability. It toggles "free" off when set and on otherwise, replacing "unavailable" |
| Filters.UnavailableClicked | src/components/SpecialtyFilterSidebar.tsx:97 | The "unavailable" button touches only availability and toggles "unavailable" the same way |
| Filters.FreeClickTwice | src/components/SpecialtyFilterSidebar.tsx:82 | Two clicks on "free" restore the state exactly when "unavailable" was not the starting value |
| Filters.RadioValue | src/components/SpecialtyFilterSidebar.tsx:117 | The radio group's value is always one of its three items |
| Filters.RadioRoundTrip | src/components/SpecialtyFilterSidebar.tsx:117-120 | The radio value and the gender filter determine each other in both directions |
| Filters.GenderPicked | src/components/SpecialtyFilterSidebar.tsx:117-120 | Picking a radio item touches only the gender key, and the merged state then displays that same item |
| Calendar.GenerateTimeSlots | src/components/AppointmentCalendarSimple.tsx:23-60 | Weekends give the first 4 template slots and weekdays all 12. Ids and labels follow the template. On today's weekday, a slot the template marks taken is never free |
| Calendar.TemplatesAgree | src/components/AppointmentCalendarSimple.tsx:25-38 | The calendar's twelve labels are, in order, the back end's twelve template starts written "HH:mm" |
| Calendar.TemplateTimesParse | src/components/AppointmentCalendarSimple.tsx:86 | Every template label parses back to its template hour and minute |
| Calendar.DateChanged | src/components/AppointmentCalendarSimple.tsx:75-80 | The picked day follows the picker. A new day brings that day's slots. Clearing the day keeps the slots on show |
| Calendar.TimeSlotSelected | src/components/AppointmentCalendarSimple.tsx:83-91 | No day picked means no callback. With a day picked, the callback gets the Invalid Date exactly when a part of the label is not a number. Otherwise, for an in-range hour and minute, it gets the picked day at the label's hour and minute, with zero seconds and milliseconds |
| Calendar.SlotClicked | src/components/AppointmentCalendarSimple.tsx:138-139 | A disabled (taken) slot reports nothing, and a report implies a picked day |
| Calendar.ClickReportsTemplateTime | src/components/AppointmentCalendarSimple.tsx:83-91 | Clicking a free slot on show while a day is picked reports a valid date: that day at the slot's template time, to the millisecond |
| Calendar.TemplateInvariant | src/components/AppointmentCalendarSimple.tsx:67-80 | The first render and every day change keep the slot buttons on the template |
| Booking.SchemaFieldRules | src/components/AppointmentForm.tsx:32-39 | From accepted values, changing one field keeps acceptance exactly when the new value meets that field's rule: names at least 2 characters, an accepted email, a phone of at least 10, a reason of at least 5. Notes never matter |
| Booking.DefaultsRejected | src/components/AppointmentForm.tsx:67-74 | The untouched form never passes the schema |
| Booking.PhoneDigitsNotEnforced | src/components/AppointmentForm.tsx:36 | The phone rule is a length check only: ten letters pass |
| Booking.Submit | src/components/AppointmentForm.tsx:90-119 | A mutation starts exactly when the schema accepts, a date is selected and the doctor id is non-zero. Its payload carries the selection, the date's "HH:mm" and the form fields verbatim |
| Booking.CalculateEndTime | src/hooks/useCreateAppointment.ts:84-91 | Valid exactly when both parts of the "HH:mm" are numbers. The result is then 30 minutes after the date set to that hour and minute, keeping its seconds and milliseconds |
| Booking.EndTimeFields | src/hooks/useCreateAppointment.ts:84-91 | For a start before 23:30, the end is on the same day with the minutes rolled over into the next hour |
| Booking.BuildRecord | src/hooks/useCreateAppointment.ts:38-58 | The record exists exactly when the end time is valid. It has status "scheduled", start = ISO date part + "T" + the form's "HH:mm", and the form fields copied |
| Booking.StartTimeFromIso | src/hooks/useCreateAppointment.ts:42 | For an ISO string "YYYY-MM-DDT…", the start is that ten-character date, "T" and the form's clock |
| Booking.SubmitForm | src/components/AppointmentForm.tsx:90-127 | The form is reset and the page notified exactly when the booking succeeds. Schema failure and a missing selection never book. A booking has status "scheduled", the chosen doctor, and an id in 1..1000 |
| Booking.ValidSubmissionBooks | src/hooks/useCreateAppointment.ts:40-52 | A valid form with a doctor and a date always books, ending exactly 30 minutes after the selected instant, with the selected clock in its start |
| Booking.EnabledButtonBooks | src/components/AppointmentForm.tsx:285 | While the submit button is enabled, a valid form with a doctor books |
| Wizard.DoctorSelected | src/pages/AppointmentsPage.tsx:21-24 | Records the doctor and opens the calendar. The date is left as it was |
| Wizard.TimeSelected | src/pages/AppointmentsPage.tsx:27-30 | Records the date and opens the form. The doctor is left as it was |
| Wizard.CancelPressed | src/pages/AppointmentsPage.tsx:33-35 | Returns to the calendar keeping both selections |
| Wizard.BookingSucceeded | src/pages/AppointmentsPage.tsx:38-42 | Returns to the initial state |
| Wizard.Step | src/pages/AppointmentsPage.tsx:55-154 | A time is only picked while the calendar is shown. Cancel and success only happen while the form is shown. A tab is only entered when its trigger is enabled |
| Wizard.StepKeepsInv | src/pages/AppointmentsPage.tsx:13-42 | One event keeps the page invariant: a date only with a doctor, the form tab only with a date, the calendar tab only with a doctor |
| Wizard.ReachableInv | src/pages/AppointmentsPage.tsx:13-42 | Every state reachable by any event sequence keeps that invariant |
| Wizard.ReachableStrongInv | src/pages/AppointmentsPage.tsx:13-42 | When picked doctor ids are non-zero, every reachable state with a date or on the calendar tab holds a truthy doctor id |
| Wizard.PickTimeShowsForm | src/pages/AppointmentsPage.tsx:27-30 | Picking a time on the shown calendar opens a form that is shown |
| Wizard.StaleDateAfterDoctorChange | src/pages/AppointmentsPage.tsx:21-30 | After picking doctor 1 and a time, then going back and picking doctor 2, the form opens for doctor 2 with the time picked under doctor 1 |
| AuthHeaders.SetAuthToken | src/services/api.ts:11-27 | A truthy token sets `Authorization: Bearer <token>`. Null or "" removes `Authorization`. Every other header is kept with its value |
| AuthHeaders.TokenReadBack | src/services/api.ts:12-16 | The header's value is the "Bearer " prefix followed by the token |
| AuthHeaders.ClearIdempotent | src/services/api.ts:17-26 | Clearing twice is clearing once |
| AuthHeaders.LastTokenWins | src/services/api.ts:11-27 | A second token replaces the first as if the first had never been set |
| AuthHeaders.SetThenClearRestores | src/services/api.ts:11-27 | Setting then clearing restores headers that had no `Authorization` |
| AuthHeaders.InitialKeepsContentHeaders | src/services/api.ts:5-8 | From the initial headers, setting or clearing a token keeps both JSON content headers |
| ClockText.SplitJoin | src/hooks/useCreateAppointment.ts:42 | Joining the parts of `split(sep)` with `sep` gives back the string |
| ClockText.SplitAtFirst | src/hooks/useCreateAppointment.ts:42 | When the separator occurs, the first part of the split is the text before its first occurrence |
| ClockText.ParseFormatClock | src/hooks/useCreateAppointment.ts:85 | Parsing "HH:mm" written from an in-range hour and minute gives them back |
| Time.AddMinutesBySetMinute | src/mockData.ts:77-78 | `setMinutes(getMinutes() + k)` moves the instant forward by exactly k minutes, across hour and day boundaries |
| Time.SetHoursFields | src/mockData.ts:75 | `setHours(h, m, s, ms)` with in-range fields keeps the day and reads back those fields |

## Left out

- Time zones, daylight saving time and the `TimeClip` range limit: the model uses a zero offset. In the source, `toISOString()` gives a UTC date while the clock comes from local hours. Near midnight, in a zone with a non-zero offset, they can name different days. The model cannot show this, because `iso` is an opaque parameter.
- `toISOString` and date-fns `format` for long dates and French locales: only the start-time prefix's ISO text is a parameter, and only "HH:mm" is formatted.
- `Availability.startTime`/`endTime` and `ApiRecord.endTime` hold the instant in place of its ISO text. `toISOString` is modelled only where it throws, on the Invalid end date.
- ClockText.ToNumber: it models `Number()` only on the empty string (0) and on strings of ASCII digits. Signs, whitespace, decimals and exponents are NaN (None) here, although `Number()` accepts them. The calendar and the form only produce two-digit parts.
- `Math.random()`: a parameter. Draws are indexed by slot position rather than by call order. On today's weekday, a template-taken slot makes no draw; the oracle value at that position is simply unused.
- MockData.GenerateAvailabilities: ignores the doctor id beyond copying it. As in the source, no existing doctor is required; the model follows the code, not a lookup with a not-found error.
- Network calls: `get`, `post`, `put`, `del` and `fetch`, including the generic error each throws on a response that is not ok, and the start-up read of the token from `localStorage`. These are I/O.
- React Query: caching, invalidation and the pending flag's timing. `pending` is a parameter of the submit guard.
- Rendering, toasts and navigation: presentation, with no booking logic.
- The login and sign-up pages: they have their own validation schemas, store the token in `localStorage`, call `setAuthToken` and post their forms. They are network calls, storage and navigation around their own schemas, outside the booking core. `setAuthToken` itself is modelled.
- The date picker's restriction to today and later days: it is a widget property, and `handleDateChange` accepts whatever the widget passes.
- `mockAPI.getSpecialties` and `getAvailabilities`: they return the table, or call the generator with the given date or `now`, without further logic.
- null and undefined in the filter state: no test the page makes tells them apart, so both are None.
- Validation errors: the schema is modelled as accept or reject. The per-field messages that the form library collects are not modelled.
- String lengths: JavaScript counts UTF-16 code units. The model counts characters.
- Slot conflicts, idempotency tokens and storage errors: the code has none. No re-check of a slot at booking time exists, a repeated submission creates another record, and an id collision among the random ids is possible. The model follows the code.

=== FILE: booking.dfy ===
/**
 * Booking a slot: the appointment form's validation schema and submit guard,
 * the conversion of the form data into the record sent to the back end
 * (`useCreateAppointment`'s `mutationFn` and `calculateEndTime`), and what the
 * form does once the mock back end has answered.
 */
module Booking {
  import opened Wrappers
  import opened Time
  import opened ClockText
  import opened Types
  import MockData

  // ---------------------------------------------------------------------------
  // The form and its schema

  datatype FormValues = FormValues(
    patientFirstName: string,
    patientLastName: string,
    patientEmail: string,
    patientPhone: string,
    reason: string,
    notes: Option<string>)

  /** The form's `defaultValues`: every field empty. */
  const DefaultValues: FormValues := FormValues("", "", "", "", "", Some(""))

  const MinNameLength: int := 2
  const MinPhoneLength: int := 10
  const MinReasonLength: int := 5

  /** An email syntax check, supplied by the validation library. */
  type EmailCheck = string -> bool

  /**
   * `appointmentFormSchema`: names of at least 2 characters, an email the
   * library accepts, a phone of at least 10 characters (any characters) and a
   * reason of at least 5; notes are free.
   */
  predicate SchemaAccepts(v: FormValues, isEmail: EmailCheck) {
    && |v.patientFirstName| >= MinNameLength
    && |v.patientLastName| >= MinNameLength
    && isEmail(v.patientEmail)
    && |v.patientPhone| >= MinPhoneLength
    && |v.reason| >= MinReasonLength
  }

  /** An untouched form never passes the schema, whatever the email check says. */
  lemma DefaultsRejected(isEmail: EmailCheck)
    ensures !SchemaAccepts(DefaultValues, isEmail)
  {
  }

  /**
   * Each rule of the schema decides acceptance on its own: from accepted values,
   * changing one field flips acceptance exactly when the new value breaks that
   * field's rule, and the notes never matter.
   */
  lemma SchemaFieldRules(v: FormValues, isEmail: EmailCheck, s: string, notes: Option<string>)
    requires SchemaAccepts(v, isEmail)
    ensures SchemaAccepts(v.(patientFirstName := s), isEmail) <==> |s| >= MinNameLength
    ensures SchemaAccepts(v.(patientLastName := s), isEmail) <==> |s| >= MinNameLength
    ensures SchemaAccepts(v.(patientEmail := s), isEmail) <==> isEmail(s)
    ensures SchemaAccepts(v.(patientPhone := s), isEmail) <==> |s| >= MinPhoneLength
    ensures SchemaAccepts(v.(reason := s), isEmail) <==> |s| >= MinReasonLength
    ensures SchemaAccepts(v.(notes := notes), isEmail)
  {
  }

  /** Only the length of the phone is checked: ten letters pass. */
  lemma PhoneDigitsNotEnforced(isEmail: EmailCheck)
    requires isEmail("a@b.fr")
    ensures SchemaAccepts(FormValues("Jo", "Li", "a@b.fr", "abcdefghij", "check", None), isEmail)
    ensures !AllDigits("abcdefghij")
  {
    assert !IsDigit("abcdefghij"[0]);
  }

  // ---------------------------------------------------------------------------
  // Submission

  /** "HH:mm" of an instant (date-fns `format(date, 'HH:mm')`). */
  function ClockOf(t: Instant): (s: string)
    ensures |s| == 5
  {
    FormatClock(HourOf(t), MinuteOf(t))
  }

  /** `AppointmentFormData`: what the form hands to the mutation. */
  datatype FormData = FormData(
    doctorId: int,
    date: Instant,
    startTime: string,
    patientFirstName: string,
    patientLastName: string,
    patientEmail: string,
    patientPhone: string,
    reason: string,
    notes: Option<string>)

  datatype SubmitOutcome =
    | SchemaRejected    // the resolver refused the values; `onSubmit` is not called
    | MissingSelection  // `onSubmit` showed the "select a doctor and a date" toast
    | Mutate(data: FormData)

  /**
   * A press on the submit button: the schema first, then `onSubmit`'s guard
   * (`!selectedDate || !doctorId`), then the payload built from the selection
   * and the values.
   */
  function Submit(v: FormValues, isEmail: EmailCheck, doctorId: int, selectedDate: Option<Instant>)
    : (o: SubmitOutcome)
    ensures o.Mutate? <==> SchemaAccepts(v, isEmail) && selectedDate.Some? && doctorId != 0
    ensures !SchemaAccepts(v, isEmail) <==> o == SchemaRejected
    ensures o.Mutate? ==>
      && o.data.doctorId == doctorId && o.data.date == selectedDate.value
      && o.data.startTime == ClockOf(selectedDate.value)
      && o.data.patientFirstName == v.patientFirstName
      && o.data.patientLastName == v.patientLastName
      && o.data.patientEmail == v.patientEmail
      && o.data.patientPhone == v.patientPhone
      && o.data.reason == v.reason
      && o.data.notes == v.notes
  {
    if !SchemaAccepts(v, isEmail) then SchemaRejected
    else if selectedDate.None? || doctorId == 0 then MissingSelection
    else
      var d := selectedDate.value;
      Mutate(FormData(doctorId, d, ClockOf(d), v.patientFirstName, v.patientLastName,
                      v.patientEmail, v.patientPhone, v.reason, v.notes))
  }

  /** The submit button is disabled without a selected date or while a creation is in flight. */
  predicate SubmitDisabled(selectedDate: Option<Instant>, pending: bool) {
    selectedDate.None? || pending
  }

  // ---------------------------------------------------------------------------
  // The record sent to the back end

  const AppointmentMinutes: int := 30

  /**
   * `calculateEndTime(date, startTime)`: `setHours(hours)` then
   * `setMinutes(minutes + 30)` on a copy of the date; the Invalid Date when a
   * part of the "HH:mm" string is not a number.
   */
  function CalculateEndTime(date: Instant, startTime: string): (r: JsDate)
    ensures r.Valid? <==> ParseClock(startTime).Some?
    ensures r.Valid? ==>
      var (h, m) := ParseClock(startTime).value;
      && r.at.ms == SetHours(date, h, m, SecondOf(date), MilliOf(date)).ms + AppointmentMinutes * MsPerMinute
      && SecondOf(r.at) == SecondOf(date) && MilliOf(r.at) == MilliOf(date)
  {
    match ParseClock(startTime)
    case None => Invalid
    case Some((h, m)) =>
      var atHour := SetHour(date, h);
      EndTimeArithmetic(date, h, m);
      Valid(SetMinute(atHour, m + AppointmentMinutes))
  }

  lemma EndTimeArithmetic(date: Instant, h: int, m: int)
    ensures var end := SetMinute(SetHour(date, h), m + AppointmentMinutes);
      && end.ms == SetHours(date, h, m, SecondOf(date), MilliOf(date)).ms + AppointmentMinutes * MsPerMinute
      && SecondOf(end) == SecondOf(date) && MilliOf(end) == MilliOf(date)
  {
    FieldsRecompose(date);
    var atHour := SetHour(date, h);
    var d, mi, s, ms := Day(date), MinuteOf(date), SecondOf(date), MilliOf(date);
    // setHours(h) may carry into another day; re-split h so the hour field is in range.
    assert atHour == MakeDate(d + h / 24, MakeTime(h % 24, mi, s, ms));
    FieldsOfMakeDate(d + h / 24, h % 24, mi, s, ms);
    var end := SetMinute(atHour, m + AppointmentMinutes);
    assert end.ms == (d + h / 24) * MsPerDay + MakeTime(h % 24, m + AppointmentMinutes, s, ms);
    var total := m + AppointmentMinutes;
    assert end == MakeDate(d + h / 24 + (h % 24 + total / 60) / 24,
                           MakeTime((h % 24 + total / 60) % 24, total % 60, s, ms));
    FieldsOfMakeDate(d + h / 24 + (h % 24 + total / 60) / 24, (h % 24 + total / 60) % 24, total % 60, s, ms);
  }

  /**
   * The end time on the clock: with an in-range start, the minutes roll over
   * into the next hour, and the day does not change before 23:30.
   */
  lemma EndTimeFields(date: Instant, h: int, m: int)
    requires InClockRange(h, m, 0, 0)
    requires h * 60 + m + AppointmentMinutes < 24 * 60
    ensures var r := CalculateEndTime(date, FormatClock(h, m));
      && r.Valid?
      && SameDay(r.at, date)
      && HourOf(r.at) == h + (m + AppointmentMinutes) / 60
      && MinuteOf(r.at) == (m + AppointmentMinutes) % 60
  {
    ParseFormatClock(h, m);
    FieldsRecompose(date);
    var total := m + AppointmentMinutes;
    var r := CalculateEndTime(date, FormatClock(h, m));
    assert r.at == MakeDate(Day(date), MakeTime(h + total / 60, total % 60, SecondOf(date), MilliOf(date)));
    FieldsOfMakeDate(Day(date), h + total / 60, total % 60, SecondOf(date), MilliOf(date));
  }

  /** `AppointmentApiData`: the record the mutation sends. */
  datatype ApiRecord = ApiRecord(
    doctorId: int,
    startTime: string,
    endTime: Instant,
    patientFirstName: string,
    patientLastName: string,
    patientEmail: string,
    patientPhone: string,
    status: Status,
    reason: string,
    notes: Option<string>)

  /**
   * The body of `mutationFn`. `iso` is `data.date.toISOString()`. The start is
   * the part of `iso` before its first 'T', a 'T', and the "HH:mm" from the
   * form; None when the end time is the Invalid Date, on which `toISOString`
   * throws and the mutation fails.
   */
  function BuildRecord(data: FormData, iso: string): (r: Option<ApiRecord>)
    ensures r.Some? <==> CalculateEndTime(data.date, data.startTime).Valid?
    ensures r.Some? ==>
      && r.value.status == Scheduled
      && r.value.doctorId == data.doctorId
      && r.value.startTime == SplitOn(iso, 'T')[0] + "T" + data.startTime
      && r.value.endTime == CalculateEndTime(data.date, data.startTime).at
      && r.value.patientFirstName == data.patientFirstName
      && r.value.patientLastName == data.patientLastName
      && r.value.patientEmail == data.patientEmail
      && r.value.patientPhone == data.patientPhone
      && r.value.reason == data.reason
      && r.value.notes == data.notes
  {
    match CalculateEndTime(data.date, data.startTime)
    case Invalid => None
    case Valid(end) =>
      Some(ApiRecord(data.doctorId, SplitOn(iso, 'T')[0] + "T" + data.startTime, end,
                     data.patientFirstName, data.patientLastName, data.patientEmail,
                     data.patientPhone, Scheduled, data.reason, data.notes))
  }

  /** For an ISO string "YYYY-MM-DDT...", the start is the ten-character date, 'T', and the form's "HH:mm". */
  lemma StartTimeFromIso(data: FormData, date10: string, rest: string)
    requires |date10| == 10 && 'T' !in date10
    requires BuildRecord(data, date10 + "T" + rest).Some?
    ensures BuildRecord(data, date10 + "T" + rest).value.startTime == date10 + "T" + data.startTime
  {
    SplitAtFirst(date10, rest, 'T');
    assert date10 + "T" + rest == date10 + ['T'] + rest;
  }

  // ---------------------------------------------------------------------------
  // One press of the submit button, end to end

  datatype BookingOutcome =
    | NotSubmitted                              // schema refused the values
    | Refused                                   // no date or no doctor selected
    | Failed                                    // the mutation threw
    | Booked(created: MockData.Created<ApiRecord>)

  /** The result of a press: the outcome, the form's values afterwards, and whether the page's `onSuccess` ran. */
  datatype Attempt = Attempt(outcome: BookingOutcome, values: FormValues, notifiedPage: bool)

  /**
   * `onSubmit` followed by the mutation against the mock back end; `random`
   * is the `Math.random()` draw that picks the new id. The form is reset, and
   * the page told, only when the creation succeeds.
   */
  function SubmitForm(v: FormValues, isEmail: EmailCheck, doctorId: int, selectedDate: Option<Instant>,
                      iso: string, random: real): (a: Attempt)
    requires 0.0 <= random < 1.0
    ensures a.notifiedPage <==> a.outcome.Booked?
    ensures a.values == (if a.outcome.Booked? then DefaultValues else v)
    ensures !SchemaAccepts(v, isEmail) ==> a.outcome == NotSubmitted
    ensures SchemaAccepts(v, isEmail) && (selectedDate.None? || doctorId == 0) ==> a.outcome == Refused
    ensures a.outcome.Booked? ==>
      && 1 <= a.outcome.created.id <= 1000
      && a.outcome.created.data.status == Scheduled
      && a.outcome.created.data.doctorId == doctorId
  {
    match Submit(v, isEmail, doctorId, selectedDate)
    case SchemaRejected => Attempt(NotSubmitted, v, false)
    case MissingSelection => Attempt(Refused, v, false)
    case Mutate(data) =>
      match BuildRecord(data, iso)
      case None => Attempt(Failed, v, false)
      case Some(record) => Attempt(Booked(MockData.CreateAppointment(record, random)), DefaultValues, true)
  }

  /**
   * A valid form with a doctor and a date is always booked, and the booked
   * appointment lasts exactly 30 minutes from the selected instant: the
   * "HH:mm" the form writes is read back by `calculateEndTime`.
   */
  lemma ValidSubmissionBooks(v: FormValues, isEmail: EmailCheck, doctorId: int, d: Instant,
                             iso: string, random: real)
    requires 0.0 <= random < 1.0
    requires SchemaAccepts(v, isEmail) && doctorId != 0
    ensures var a := SubmitForm(v, isEmail, doctorId, Some(d), iso, random);
      && a.outcome.Booked?
      && a.outcome.created.data.endTime.ms == d.ms + AppointmentMinutes * MsPerMinute
      && a.outcome.created.data.startTime == SplitOn(iso, 'T')[0] + "T" + ClockOf(d)
  {
    FieldsRecompose(d);
    ParseFormatClock(HourOf(d), MinuteOf(d));
  }

  /**
   * An enabled submit button means a date is selected, so with a valid form
   * and a doctor the press books.
   */
  lemma EnabledButtonBooks(v: FormValues, isEmail: EmailCheck, doctorId: int, selectedDate: Option<Instant>,
                           pending: bool, iso: string, random: real)
    requires 0.0 <= random < 1.0
    requires !SubmitDisabled(selectedDate, pending)
    requires SchemaAccepts(v, isEmail) && doctorId != 0
    ensures SubmitForm(v, isEmail, doctorId, selectedDate, iso, random).outcome.Booked?
  {
    ValidSubmissionBooks(v, isEmail, doctorId, selectedDate.value, iso, random);
  }
}

=== FILE: calendar.dfy ===
/**
 * The simplified appointment calendar: the slot list it shows for a chosen
 * day, the date picker's handler, and what a click on a slot reports upward.
 */
module Calendar {
  import opened Wrappers
  import opened Time
  import opened ClockText
  import MockData

  /** An entry of the calendar's own day template. */
  datatype BaseSlot = BaseSlot(time: string, available: bool)

  const BaseSlots: seq<BaseSlot> := [
    BaseSlot("09:00", true),
    BaseSlot("09:30", true),
    BaseSlot("10:00", false),
    BaseSlot("10:30", true),
    BaseSlot("11:00", true),
    BaseSlot("11:30", false),
    BaseSlot("14:00", true),
    BaseSlot("14:30", true),
    BaseSlot("15:00", true),
    BaseSlot("15:30", false),
    BaseSlot("16:00", true),
    BaseSlot("16:30", true)
  ]

  /** Weekends only offer the first four template entries, 09:00 to 10:30. */
  const WeekendSlotCount: int := 4

  /** A slot button: its position, its "HH:mm" label and whether it can be clicked. */
  datatype TimeSlot = TimeSlot(id: int, time: string, available: bool)

  /** `getDay()` is 0 (Sunday) or 6 (Saturday). */
  predicate IsWeekend(date: Instant) {
    WeekDay(date) == 0 || WeekDay(date) == 6
  }

  /**
   * `generateTimeSlots(date)`. `now` is `new Date()` at the time of the call and
   * `random(i)` is the draw made for slot i, if any (on today's date a slot the
   * template marks taken is not drawn for, because `&&` short-circuits).
   */
  function GenerateTimeSlots(date: Instant, now: Instant, random: MockData.RandomOracle): (slots: seq<TimeSlot>)
    ensures IsWeekend(date) ==> |slots| == WeekendSlotCount
    ensures !IsWeekend(date) ==> |slots| == |BaseSlots|
    ensures forall i :: 0 <= i < |slots| ==> slots[i].id == i && slots[i].time == BaseSlots[i].time
    ensures !IsWeekend(date) && SameDay(date, now) ==>
      forall i :: 0 <= i < |slots| && !BaseSlots[i].available ==> !slots[i].available
  {
    if IsWeekend(date) then
      seq(WeekendSlotCount, i requires 0 <= i < WeekendSlotCount =>
        TimeSlot(i, BaseSlots[i].time, random(i) > 0.5))
    else
      seq(|BaseSlots|, i requires 0 <= i < |BaseSlots| =>
        TimeSlot(i, BaseSlots[i].time,
          if SameDay(date, now) then BaseSlots[i].available && random(i) > 0.3 else random(i) > 0.4))
  }

  /**
   * The calendar's template lists the same twelve start times, in the same
   * order, as the mock back end's availability template.
   */
  lemma TemplatesAgree()
    ensures |BaseSlots| == |MockData.StartHours| * |MockData.MinuteOffsets|
    ensures forall i :: 0 <= i < |BaseSlots| ==>
      BaseSlots[i].time == FormatClock(MockData.StartHours[i / 2], MockData.MinuteOffsets[i % 2])
  {
  }

  /** Every label of the template reads back as its hour and minute. */
  lemma TemplateTimesParse(i: int)
    requires 0 <= i < |BaseSlots|
    ensures ParseClock(BaseSlots[i].time) == Some((MockData.StartHours[i / 2], MockData.MinuteOffsets[i % 2]))
  {
    TemplatesAgree();
    ParseFormatClock(MockData.StartHours[i / 2], MockData.MinuteOffsets[i % 2]);
  }

  /** The component's state: the picked day and the slot buttons on show. */
  datatype CalendarState = CalendarState(selectedDate: Option<Instant>, timeSlots: seq<TimeSlot>)

  /** The slot buttons carry template labels, in template order: the calendar's state invariant. */
  predicate FollowsTemplate(slots: seq<TimeSlot>) {
    |slots| <= |BaseSlots| && forall j :: 0 <= j < |slots| ==> slots[j].time == BaseSlots[j].time
  }

  /** The first render: today is picked and its slots are shown. */
  function Init(now: Instant, random: MockData.RandomOracle): (s: CalendarState) {
    CalendarState(Some(now), GenerateTimeSlots(now, now, random))
  }

  /**
   * `handleDateChange(date)`: the picked day follows the picker; a new day
   * brings its own slots, and clearing the day leaves the slots on show.
   */
  function DateChanged(s: CalendarState, date: Option<Instant>, now: Instant, random: MockData.RandomOracle)
    : (r: CalendarState)
    ensures r.selectedDate == date
    ensures date.None? ==> r.timeSlots == s.timeSlots
    ensures date.Some? ==> r.timeSlots == GenerateTimeSlots(date.value, now, random)
  {
    if date.Some? then CalendarState(date, GenerateTimeSlots(date.value, now, random))
    else CalendarState(date, s.timeSlots)
  }

  lemma ClockAt(d: Instant, h: int, m: int)
    ensures InClockRange(h, m, 0, 0) ==>
      var t := SetHours(d, h, m, 0, 0);
      SameDay(t, d) && HourOf(t) == h && MinuteOf(t) == m && SecondOf(t) == 0 && MilliOf(t) == 0
  {
    if InClockRange(h, m, 0, 0) {
      SetHoursFields(d, h, m, 0, 0);
    }
  }

  /**
   * `handleTimeSlotSelect(time)`: None when no day is picked (no callback);
   * otherwise the `Date` handed to `onTimeSelect`: the picked day at the parsed
   * hour and minute, with seconds and milliseconds zeroed, or the Invalid Date
   * when a part of the label is not a number.
   */
  function TimeSlotSelected(s: CalendarState, time: string): (r: Option<JsDate>)
    ensures s.selectedDate.None? <==> r.None?
    ensures s.selectedDate.Some? ==> (r == Some(Invalid) <==> ParseClock(time).None?)
    ensures s.selectedDate.Some? && ParseClock(time).Some? ==>
      var (h, m) := ParseClock(time).value;
      InClockRange(h, m, 0, 0) ==>
        && r.Some? && r.value.Valid?
        && var t := r.value.at;
           SameDay(t, s.selectedDate.value) && HourOf(t) == h && MinuteOf(t) == m
           && SecondOf(t) == 0 && MilliOf(t) == 0
  {
    if s.selectedDate.None? then None
    else
      match ParseClock(time)
      case None => Some(Invalid)
      case Some((h, m)) =>
        ClockAt(s.selectedDate.value, h, m);
        Some(Valid(SetHours(s.selectedDate.value, h, m, 0, 0)))
  }

  /** A click on a slot button: a taken slot is disabled and reports nothing. */
  function SlotClicked(s: CalendarState, slot: TimeSlot): (r: Option<JsDate>)
    ensures !slot.available ==> r.None?
    ensures r.Some? ==> s.selectedDate.Some?
  {
    if slot.available then TimeSlotSelected(s, slot.time) else None
  }

  /**
   * Any free slot on show, clicked while a day is picked, reports a valid date:
   * that day at the slot's template time, to the millisecond.
   */
  lemma ClickReportsTemplateTime(s: CalendarState, i: int)
    requires FollowsTemplate(s.timeSlots)
    requires 0 <= i < |s.timeSlots|
    requires s.selectedDate.Some?
    requires s.timeSlots[i].available
    ensures var r := SlotClicked(s, s.timeSlots[i]);
      && r.Some? && r.value.Valid?
      && SameDay(r.value.at, s.selectedDate.value)
      && HourOf(r.value.at) == MockData.StartHours[i / 2]
      && MinuteOf(r.value.at) == MockData.MinuteOffsets[i % 2]
      && SecondOf(r.value.at) == 0 && MilliOf(r.value.at) == 0
  {
    TemplateTimesParse(i);
  }

  /** The first render and every change of day keep the slot buttons on the template. */
  lemma TemplateInvariant(s: CalendarState, date: Option<Instant>, now: Instant, random: MockData.RandomOracle)
    requires FollowsTemplate(s.timeSlots)
    ensures FollowsTemplate(Init(now, random).timeSlots)
    ensures FollowsTemplate(DateChanged(s, date, now, random).timeSlots)
  {
  }
}

=== FILE: clocktext.dfy ===
/**
 * The string side of clock times: `String.prototype.split` on one separator
 * character, `Number` on the pieces, and date-fns' two-digit "HH:mm" format.
 */
module ClockText {
  import opened Wrappers

  /** `s.split(sep)` for a one-character separator: the pieces between separators, in order. */
  function SplitOn(s: string, sep: char): (parts: seq<string>)
    ensures |parts| >= 1
    ensures forall i :: 0 <= i < |parts| ==> sep !in parts[i]
    decreases |s|
  {
    if |s| == 0 then [""]
    else
      var rest := SplitOn(s[1..], sep);
      if s[0] == sep then [""] + rest
      else [[s[0]] + rest[0]] + rest[1..]
  }

  /** `parts.join(sep)`: the inverse of SplitOn. */
  function JoinWith(parts: seq<string>, sep: char): (s: string)
    requires |parts| >= 1
  {
    if |parts| == 1 then parts[0] else parts[0] + [sep] + JoinWith(parts[1..], sep)
  }

  /** Splitting loses nothing: joining the pieces back gives the original string. */
  lemma {:induction false} SplitJoin(s: string, sep: char)
    ensures JoinWith(SplitOn(s, sep), sep) == s
    decreases |s|
  {
    if |s| > 0 {
      SplitJoin(s[1..], sep);
      var rest := SplitOn(s[1..], sep);
      if s[0] == sep {
        assert s == [sep] + s[1..];
      } else if |rest| == 1 {
        assert s == [s[0]] + s[1..];
      } else {
        assert s == [s[0]] + s[1..];
        assert JoinWith(rest, sep) == rest[0] + [sep] + JoinWith(rest[1..], sep);
      }
    }
  }

  /** A string with no separator in it splits into itself alone. */
  lemma {:induction false} SplitNoSep(s: string, sep: char)
    requires sep !in s
    ensures SplitOn(s, sep) == [s]
    decreases |s|
  {
    if |s| > 0 {
      assert sep !in s[1..] by {
        forall i | 0 <= i < |s[1..]| ensures s[1..][i] != sep {
          assert s[1..][i] == s[i + 1];
        }
      }
      SplitNoSep(s[1..], sep);
      assert [s[0]] + s[1..] == s;
    }
  }

  /** The first piece of `a + sep + b`, when `a` holds no separator, is `a`; the rest is the split of `b`. */
  lemma {:induction false} SplitAtFirst(a: string, b: string, sep: char)
    requires sep !in a
    ensures SplitOn(a + [sep] + b, sep) == [a] + SplitOn(b, sep)
    decreases |a|
  {
    if |a| == 0 {
      assert a + [sep] + b == [sep] + b;
      assert (a + [sep] + b)[1..] == b;
    } else {
      assert sep !in a[1..] by {
        forall i | 0 <= i < |a[1..]| ensures a[1..][i] != sep {
          assert a[1..][i] == a[i + 1];
        }
      }
      SplitAtFirst(a[1..], b, sep);
      assert (a + [sep] + b)[1..] == a[1..] + [sep] + b;
      assert [a[0]] + a[1..] == a;
    }
  }

  predicate IsDigit(c: char) { '0' <= c <= '9' }

  function DigitValue(c: char): (v: int)
    requires IsDigit(c)
  {
    c as int - '0' as int
  }

  function DigitChar(d: int): (c: char)
    requires 0 <= d < 10
    ensures IsDigit(c) && DigitValue(c) == d
  {
    ('0' as int + d) as char
  }

  predicate AllDigits(s: string) { forall i :: 0 <= i < |s| ==> IsDigit(s[i]) }

  /** The decimal value of a string of digits, most significant first. */
  function DecimalValue(s: string): (v: nat)
    requires AllDigits(s)
    decreases |s|
  {
    if |s| == 0 then 0 else DecimalValue(s[..|s| - 1]) * 10 + DigitValue(s[|s| - 1])
  }

  /**
   * `Number(s)` on the strings this model feeds it: the empty string is 0,
   * a string of decimal digits is its value, and anything else is NaN (None).
   */
  function ToNumber(s: string): (n: Option<int>)
    ensures s == "" ==> n == Some(0)
    ensures |s| > 0 && !AllDigits(s) ==> n == None
    ensures n.Some? ==> n.value >= 0
  {
    if AllDigits(s) then Some(DecimalValue(s)) else None
  }

  /** date-fns "HH" or "mm": a number below 100, zero-padded to two digits. */
  function TwoDigits(n: int): (s: string)
    requires 0 <= n < 100
    ensures |s| == 2 && AllDigits(s)
  {
    [DigitChar(n / 10), DigitChar(n % 10)]
  }

  /** date-fns `format(d, 'HH:mm')` from the hour and minute fields. */
  function FormatClock(h: int, m: int): (s: string)
    requires 0 <= h < 100 && 0 <= m < 100
    ensures |s| == 5 && s[2] == ':'
  {
    TwoDigits(h) + ":" + TwoDigits(m)
  }

  /**
   * Reading an "HH:mm" label: the text is split at ':' and the first two pieces
   * converted with `Number`. The result is both numbers, or None when either is
   * NaN; a missing second piece is `undefined`, which is NaN too.
   */
  function ParseClock(s: string): (r: Option<(int, int)>)
    ensures r.Some? ==> r.value.0 >= 0 && r.value.1 >= 0
  {
    var parts := SplitOn(s, ':');
    if |parts| < 2 then None
    else
      match (ToNumber(parts[0]), ToNumber(parts[1]))
      case (Some(h), Some(m)) => Some((h, m))
      case _ => None
  }

  lemma TwoDigitsValue(n: int)
    requires 0 <= n < 100
    ensures DecimalValue(TwoDigits(n)) == n
    ensures ':' !in TwoDigits(n)
  {
    var s := TwoDigits(n);
    assert s[..|s| - 1] == [s[0]];
    assert [s[0]][..0] == [];
    assert DecimalValue([s[0]]) == DigitValue(s[0]);
    assert DecimalValue(s) == DigitValue(s[0]) * 10 + DigitValue(s[1]);
  }

  /** Parsing a formatted clock gives back the hour and the minute. */
  lemma ParseFormatClock(h: int, m: int)
    requires 0 <= h < 100 && 0 <= m < 100
    ensures ParseClock(FormatClock(h, m)) == Some((h, m))
  {
    TwoDigitsValue(h);
    TwoDigitsValue(m);
    SplitAtFirst(TwoDigits(h), TwoDigits(m), ':');
    SplitNoSep(TwoDigits(m), ':');
    assert FormatClock(h, m) == TwoDigits(h) + [':'] + TwoDigits(m);
  }
}

=== FILE: filters.dfy ===
/**
 * The doctor list's filters: the filter state of the list page, the partial
 * updates the sidebar emits, the spread merge that applies them, and the
 * gender and availability test applied to the fetched doctors.
 *
 * `null` and `undefined` behave the same in every test the code makes on a
 * filter value (both are falsy and equal to no string), so both are None here.
 */
module Filters {
  import opened Wrappers
  import opened Types
  import opened Seqs
  import MockData

  datatype AvailabilityFilter = Free | Unavailable

  datatype FilterState = FilterState(
    specialtyId: Option<int>,
    gender: Option<Gender>,
    availability: Option<AvailabilityFilter>)

  /** `useState<FilterState>({})`. */
  const Initial: FilterState := FilterState(None, None, None)

  /**
   * A `Partial<FilterState>`: for each key, None when the key is absent from
   * the object and Some(v) when it is present with value v (v may itself be None).
   */
  datatype FilterUpdate = FilterUpdate(
    specialtyId: Option<Option<int>>,
    gender: Option<Option<Gender>>,
    availability: Option<Option<AvailabilityFilter>>)

  const NoChange: FilterUpdate := FilterUpdate(None, None, None)

  datatype Key = SpecialtyKey | GenderKey | AvailabilityKey

  /** The keys an update object carries. */
  function Keys(u: FilterUpdate): (keys: set<Key>) {
    (if u.specialtyId.Some? then {SpecialtyKey} else {})
    + (if u.gender.Some? then {GenderKey} else {})
    + (if u.availability.Some? then {AvailabilityKey} else {})
  }

  /** The two states hold the same value under key k. */
  predicate SameOn(a: FilterState, b: FilterState, k: Key) {
    match k
    case SpecialtyKey => a.specialtyId == b.specialtyId
    case GenderKey => a.gender == b.gender
    case AvailabilityKey => a.availability == b.availability
  }

  /** The value under one key after `{...prev, ...update}`. */
  function Overwrite<T>(prev: T, update: Option<T>): (r: T) {
    if update.Some? then update.value else prev
  }

  /**
   * `handleFilterChange`: the new state spreads the update over the previous one.
   * Every key the update carries takes the update's value; every other key
   * keeps its previous value.
   */
  function Merge(prev: FilterState, u: FilterUpdate): (r: FilterState)
    ensures forall k :: k !in Keys(u) ==> SameOn(r, prev, k)
    ensures u.specialtyId.Some? ==> r.specialtyId == u.specialtyId.value
    ensures u.gender.Some? ==> r.gender == u.gender.value
    ensures u.availability.Some? ==> r.availability == u.availability.value
  {
    FilterState(
      Overwrite(prev.specialtyId, u.specialtyId),
      Overwrite(prev.gender, u.gender),
      Overwrite(prev.availability, u.availability))
  }

  /** Spreading the empty object changes nothing. */
  lemma MergeNoChange(s: FilterState)
    ensures Merge(s, NoChange) == s
  {
  }

  /** One spread after another: the later update wins on the keys it carries. */
  function Then(first: FilterUpdate, second: FilterUpdate): (u: FilterUpdate) {
    FilterUpdate(
      if second.specialtyId.Some? then second.specialtyId else first.specialtyId,
      if second.gender.Some? then second.gender else first.gender,
      if second.availability.Some? then second.availability else first.availability)
  }

  lemma MergeTwice(s: FilterState, u1: FilterUpdate, u2: FilterUpdate)
    ensures Merge(Merge(s, u1), u2) == Merge(s, Then(u1, u2))
    ensures Keys(Then(u1, u2)) == Keys(u1) + Keys(u2)
  {
  }

  // ---------------------------------------------------------------------------
  // The list filter

  /**
   * The test inside `doctors.filter` on the list page: a doctor is dropped when
   * a gender is chosen and differs from the doctor's, when "free" is chosen and
   * the doctor's `hasAvailability` is falsy, or when "unavailable" is chosen and
   * it is truthy.
   */
  predicate Shown(f: FilterState, d: Doctor) {
    && !(f.gender.Some? && d.gender != f.gender)
    && !(f.availability == Some(Free) && d.hasAvailability != Some(true))
    && !(f.availability == Some(Unavailable) && d.hasAvailability == Some(true))
  }

  function ShownBy(f: FilterState): (test: Doctor -> bool) {
    (d: Doctor) => Shown(f, d)
  }

  /** `filteredDoctors`: the fetched doctors that pass the page's test. */
  function FilteredDoctors(f: FilterState, doctors: seq<Doctor>): (r: seq<Doctor>)
    ensures IsSubseq(r, doctors)
    ensures f.gender.Some? ==> forall d :: d in r ==> d.gender == f.gender
    ensures f.availability == Some(Free) ==> forall d :: d in r ==> d.hasAvailability == Some(true)
    ensures f.availability == Some(Unavailable) ==> forall d :: d in r ==> d.hasAvailability != Some(true)
    ensures forall d :: d in doctors && (f.gender.None? || d.gender == f.gender)
                        && (f.availability == Some(Free) ==> d.hasAvailability == Some(true))
                        && (f.availability == Some(Unavailable) ==> d.hasAvailability != Some(true))
                        ==> d in r
    ensures forall d :: multiset(r)[d] == if Shown(f, d) then multiset(doctors)[d] else 0
  {
    FilterMembers(ShownBy(f), doctors);
    FilterMultiplicity(ShownBy(f), doctors);
    FilterIsSubseq(ShownBy(f), doctors);
    Filter(ShownBy(f), doctors)
  }

  /** With no gender and no availability chosen, the list is shown whole and in order. */
  lemma NoCriteriaShowsAll(f: FilterState, doctors: seq<Doctor>)
    requires f.gender.None? && f.availability.None?
    ensures FilteredDoctors(f, doctors) == doctors
  {
    FilterAll(ShownBy(f), doctors);
  }

  /**
   * What the page lists: the doctors fetched for the chosen specialty, then
   * narrowed by gender and availability.
   */
  function Listed(table: seq<Doctor>, f: FilterState): (r: seq<Doctor>)
    ensures forall d :: d in r <==>
      d in table && Shown(f, d) && (TruthyId(f.specialtyId) ==> d.specialtyId == f.specialtyId.value)
    ensures !TruthyId(f.specialtyId) ==> r == FilteredDoctors(f, table)
    ensures TruthyId(f.specialtyId) ==> IsSubseq(r, table)
    ensures TruthyId(f.specialtyId) ==>
      forall d :: multiset(r)[d] == if Shown(f, d) && d.specialtyId == f.specialtyId.value then multiset(table)[d] else 0
  {
    var fetched := MockData.GetDoctors(table, f.specialtyId);
    FilterMembers(ShownBy(f), fetched);
    ListedInTableOrder(table, f);
    FilteredDoctors(f, fetched)
  }

  /**
   * With a truthy specialty, fetching by specialty and then filtering keeps the
   * table's order and each doctor's number of occurrences.
   */
  lemma ListedInTableOrder(table: seq<Doctor>, f: FilterState)
    ensures TruthyId(f.specialtyId) ==>
      var r := Filter(ShownBy(f), MockData.GetDoctors(table, f.specialtyId));
      && IsSubseq(r, table)
      && forall d :: multiset(r)[d] ==
           if Shown(f, d) && d.specialtyId == f.specialtyId.value then multiset(table)[d] else 0
  {
    if TruthyId(f.specialtyId) {
      var id := f.specialtyId.value;
      var q := MockData.InSpecialty(id);
      var both := Both(q, ShownBy(f));
      var r := Filter(ShownBy(f), MockData.GetDoctors(table, f.specialtyId));
      assert MockData.GetDoctors(table, f.specialtyId) == Filter(q, table);
      FilterFuse(ShownBy(f), q, table);
      assert r == Filter(both, table);
      FilterIsSubseq(both, table);
      FilterMultiplicity(both, table);
      forall d
        ensures multiset(r)[d] == if Shown(f, d) && d.specialtyId == id then multiset(table)[d] else 0
      {
        assert both(d) == (d.specialtyId == id && Shown(f, d));
      }
    }
  }

  /** The page starts from `{}` and lists the whole static table. */
  lemma InitialListsEverything()
    ensures Listed(MockData.Doctors, Initial) == MockData.Doctors
  {
    NoCriteriaShowsAll(Initial, MockData.Doctors);
  }

  // ---------------------------------------------------------------------------
  // The sidebar's handlers

  /** `handleSpecialtyChange(id)`: clicking the ticked specialty clears it, any other selects it. */
  function SpecialtyClicked(current: FilterState, id: int): (u: FilterUpdate)
    ensures Keys(u) == {SpecialtyKey}
    ensures Merge(current, u).specialtyId == (if current.specialtyId == Some(id) then None else Some(id))
  {
    if current.specialtyId == Some(id) then FilterUpdate(Some(None), None, None)
    else FilterUpdate(Some(Some(id)), None, None)
  }

  /** The "Free doctors only" button: ticks "free", or unticks it when it is already ticked. */
  function FreeClicked(current: FilterState): (u: FilterUpdate)
    ensures Keys(u) == {AvailabilityKey}
    ensures Merge(current, u).availability == (if current.availability == Some(Free) then None else Some(Free))
  {
    FilterUpdate(None, None, Some(if current.availability == Some(Free) then None else Some(Free)))
  }

  /** The "Unavailable doctors only" button, symmetric to the "free" one. */
  function UnavailableClicked(current: FilterState): (u: FilterUpdate)
    ensures Keys(u) == {AvailabilityKey}
    ensures Merge(current, u).availability ==
      (if current.availability == Some(Unavailable) then None else Some(Unavailable))
  {
    FilterUpdate(None, None, Some(if current.availability == Some(Unavailable) then None else Some(Unavailable)))
  }

  /** The radio items of the gender group. */
  const NoPreference: string := "no-preference"
  const FemaleValue: string := "female"
  const MaleValue: string := "male"

  predicate IsRadioItem(v: string) { v == NoPreference || v == FemaleValue || v == MaleValue }

  /** The radio group's value: `currentFilters.gender || 'no-preference'`. */
  function RadioValue(g: Option<Gender>): (v: string)
    ensures IsRadioItem(v)
  {
    match g
    case None => NoPreference
    case Some(Female) => FemaleValue
    case Some(Male) => MaleValue
  }

  /** The radio group's `onValueChange`: 'no-preference' is null, the others are the gender itself. */
  function GenderOfRadio(v: string): (g: Option<Gender>)
    requires IsRadioItem(v)
  {
    if v == NoPreference then None
    else if v == FemaleValue then Some(Female)
    else Some(Male)
  }

  /** The radio value and the gender filter determine each other. */
  lemma RadioRoundTrip(g: Option<Gender>, v: string)
    requires IsRadioItem(v)
    ensures GenderOfRadio(RadioValue(g)) == g
    ensures RadioValue(GenderOfRadio(v)) == v
  {
  }

  /** `handleGenderChange`, fed by the radio group. */
  function GenderPicked(v: string): (u: FilterUpdate)
    requires IsRadioItem(v)
    ensures Keys(u) == {GenderKey}
    ensures forall s :: RadioValue(Merge(s, u).gender) == v
  {
    FilterUpdate(None, Some(GenderOfRadio(v)), None)
  }

  /** Clicking the same specialty twice from an unfiltered or same-specialty state returns to it. */
  lemma SpecialtyClickTwice(s: FilterState, id: int)
    requires s.specialtyId.None? || s.specialtyId == Some(id)
    ensures var s1 := Merge(s, SpecialtyClicked(s, id)); Merge(s1, SpecialtyClicked(s1, id)) == s
  {
  }

  /** Clicking "free" twice is undone unless "unavailable" was ticked, which the first click replaced. */
  lemma FreeClickTwice(s: FilterState)
    ensures var s1 := Merge(s, FreeClicked(s));
      var s2 := Merge(s1, FreeClicked(s1));
      (s.availability != Some(Unavailable) <==> s2 == s)
  {
    var s1 := Merge(s, FreeClicked(s));
    var s2 := Merge(s1, FreeClicked(s1));
    match s.availability
    case None =>
      assert s2.availability == None;
    case Some(Free) =>
      assert s2.availability == Some(Free);
    case Some(Unavailable) =>
      assert s2.availability == None;
  }
}

=== FILE: headers.dfy ===
/** The shared request headers of the API client and `setAuthToken`'s update of them. */
module AuthHeaders {
  import opened Wrappers
  import opened Types

  type Headers = map<string, string>

  const AuthorizationKey: string := "Authorization"
  const BearerPrefix: string := "Bearer "

  /** The headers the client starts with. */
  const InitialHeaders: Headers := map["Content-Type" := "application/json", "Accept" := "application/json"]

  /**
   * `setAuthToken(token)`: a truthy token sets `Authorization` to
   * "Bearer <token>" over the current headers; null or the empty string copies
   * every entry except `Authorization` into a fresh header object.
   */
  function SetAuthToken(h: Headers, token: Option<string>): (r: Headers)
    ensures TruthyText(token) ==> AuthorizationKey in r && r[AuthorizationKey] == BearerPrefix + token.value
    ensures !TruthyText(token) ==> AuthorizationKey !in r
    ensures forall k :: k != AuthorizationKey ==> (k in r <==> k in h)
    ensures forall k :: k != AuthorizationKey && k in r ==> r[k] == h[k]
  {
    if TruthyText(token) then h[AuthorizationKey := BearerPrefix + token.value]
    else map k | k in h && k != AuthorizationKey :: h[k]
  }

  /** The token can be read back from the header it set. */
  lemma TokenReadBack(h: Headers, token: string)
    requires token != ""
    ensures var r := SetAuthToken(h, Some(token));
      r[AuthorizationKey][..|BearerPrefix|] == BearerPrefix && r[AuthorizationKey][|BearerPrefix|..] == token
  {
  }

  /** Clearing twice is clearing once. */
  lemma ClearIdempotent(h: Headers, t1: Option<string>, t2: Option<string>)
    requires !TruthyText(t1) && !TruthyText(t2)
    ensures SetAuthToken(SetAuthToken(h, t1), t2) == SetAuthToken(h, t1)
  {
  }

  /** The last token set wins: a second set replaces the first as if it had never been set. */
  lemma LastTokenWins(h: Headers, first: Option<string>, second: string)
    requires second != ""
    ensures SetAuthToken(SetAuthToken(h, first), Some(second)) == SetAuthToken(h, Some(second))
  {
  }

  /** Setting a token and clearing it gives back headers that had no `Authorization` entry. */
  lemma SetThenClearRestores(h: Headers, token: Option<string>, cleared: Option<string>)
    requires AuthorizationKey !in h
    requires !TruthyText(cleared)
    ensures SetAuthToken(SetAuthToken(h, token), cleared) == h
  {
  }

  /** From the initial headers, any token set keeps the JSON content headers. */
  lemma InitialKeepsContentHeaders(token: Option<string>)
    ensures var r := SetAuthToken(InitialHeaders, token);
      r["Content-Type"] == "application/json" && r["Accept"] == "application/json"
  {
  }
}

=== FILE: mockdata.dfy ===
/**
 * The in-memory stand-in for the booking back end: the static specialty and
 * doctor tables, the day template of availabilities, and the mock API calls.
 * Every `Math.random()` draw is an oracle argument; the facts below hold for
 * every outcome of the oracle.
 */
module MockData {
  import opened Wrappers
  import opened Time
  import opened Types
  import opened Seqs

  const Specialties: seq<Specialty> := [
    Specialty(1, "Médecine générale", Some("Soins médicaux de premier recours")),
    Specialty(2, "Cardiologie", Some("Maladies du cœur et des vaisseaux")),
    Specialty(3, "Dermatologie", Some("Maladies de la peau")),
    Specialty(4, "Pédiatrie", Some("Soins des enfants et adolescents")),
    Specialty(5, "Gynécologie", Some("Santé des femmes")),
    Specialty(6, "Ophtalmologie", Some("Soins des yeux"))
  ]

  const Doctors: seq<Doctor> := [
    Doctor(1, "Jean", "Dupont", 1, Specialties[0], Some("/avatars/doctor-1.jpg"), None, None),
    Doctor(2, "Marie", "Laurent", 1, Specialties[0], Some("/avatars/doctor-2.jpg"), None, None),
    Doctor(3, "Philippe", "Martin", 2, Specialties[1], Some("/avatars/doctor-3.jpg"), None, None),
    Doctor(4, "Sophie", "Lefevre", 3, Specialties[2], Some("/avatars/doctor-4.jpg"), None, None),
    Doctor(5, "Thomas", "Moreau", 4, Specialties[3], Some("/avatars/doctor-5.jpg"), None, None),
    Doctor(6, "Claire", "Bernard", 5, Specialties[4], Some("/avatars/doctor-6.jpg"), None, None)
  ]

  /** The static tables are consistent: ids are distinct and each doctor's specialty is the one its id names. */
  lemma TablesConsistent()
    ensures forall i, j :: 0 <= i < j < |Specialties| ==> Specialties[i].id != Specialties[j].id
    ensures forall i, j :: 0 <= i < j < |Doctors| ==> Doctors[i].id != Doctors[j].id
    ensures forall i :: 0 <= i < |Doctors| ==>
      exists k :: 0 <= k < |Specialties| && Specialties[k] == Doctors[i].specialty
                  && Doctors[i].specialty.id == Doctors[i].specialtyId
  {
    forall i | 0 <= i < |Doctors|
      ensures exists k :: 0 <= k < |Specialties| && Specialties[k] == Doctors[i].specialty
                          && Doctors[i].specialty.id == Doctors[i].specialtyId
    {
      var k := Doctors[i].specialtyId - 1;
      assert Specialties[k] == Doctors[i].specialty;
    }
  }

  // ---------------------------------------------------------------------------
  // The day template of availabilities

  /** The start hours of the day template. */
  const StartHours: seq<int> := [9, 10, 11, 14, 15, 16]

  /** Each start hour is split into two 30-minute slots. */
  const MinuteOffsets: seq<int> := [0, 30]

  const SlotMinutes: int := 30

  /** `Math.random()`: the k-th draw of a call, a real in [0, 1). */
  type RandomOracle = nat -> real

  /** The start of the k-th template slot on the day of `date`: hour k/2, minute 0 or 30, second and millisecond 0. */
  function TemplateStart(date: Instant, k: int): (start: Instant)
    requires 0 <= k < |StartHours| * |MinuteOffsets|
  {
    SetHours(date, StartHours[k / 2], MinuteOffsets[k % 2], 0, 0)
  }

  lemma TemplateStartsAscend(date: Instant, j: int, k: int)
    requires 0 <= j < k < |StartHours| * |MinuteOffsets|
    ensures TemplateStart(date, j).ms < TemplateStart(date, k).ms
  {
    SameDayOrder(Day(date), StartHours[j / 2], MinuteOffsets[j % 2], StartHours[k / 2], MinuteOffsets[k % 2]);
  }

  /**
   * `generateAvailabilities(doctorId, date)`: for each start hour in order, a
   * slot at :00 and one at :30, each 30 minutes long, numbered 1 to 12 in
   * output order; slot k is available when the k-th random draw exceeds 0.3.
   */
  method GenerateAvailabilities(doctorId: int, date: Instant, random: RandomOracle)
    returns (slots: seq<Availability>)
    ensures |slots| == |StartHours| * |MinuteOffsets| == 12
    ensures forall k :: 0 <= k < |slots| ==> slots[k].id == k + 1
    ensures forall k :: 0 <= k < |slots| ==> slots[k].doctorId == doctorId
    ensures forall k :: 0 <= k < |slots| ==>
      var s := slots[k].startTime;
      && SameDay(s, date) && HourOf(s) == StartHours[k / 2] && MinuteOf(s) == MinuteOffsets[k % 2]
      && SecondOf(s) == 0 && MilliOf(s) == 0
    ensures forall k :: 0 <= k < |slots| ==>
      slots[k].endTime.ms == slots[k].startTime.ms + SlotMinutes * MsPerMinute
    ensures forall k :: 0 <= k < |slots| ==> (slots[k].isAvailable <==> random(k) > 0.3)
    ensures forall j, k :: 0 <= j < k < |slots| ==> slots[j].startTime.ms < slots[k].startTime.ms
  {
    slots := [];
    var index := 0;
    while index < |StartHours|
      invariant 0 <= index <= |StartHours|
      invariant |slots| == index * |MinuteOffsets|
      invariant forall k :: 0 <= k < |slots| ==>
        slots[k] == Availability(k + 1, doctorId, TemplateStart(date, k),
                                 At(TemplateStart(date, k).ms + SlotMinutes * MsPerMinute), random(k) > 0.3)
    {
      var hour := StartHours[index];
      var minuteIndex := 0;
      while minuteIndex < |MinuteOffsets|
        invariant 0 <= minuteIndex <= |MinuteOffsets|
        invariant |slots| == index * |MinuteOffsets| + minuteIndex
        invariant forall k :: 0 <= k < |slots| ==>
          slots[k] == Availability(k + 1, doctorId, TemplateStart(date, k),
                                   At(TemplateStart(date, k).ms + SlotMinutes * MsPerMinute), random(k) > 0.3)
      {
        var minute := MinuteOffsets[minuteIndex];
        var startTime := SetHours(date, hour, minute, 0, 0);
        // the end is a copy of the start moved 30 minutes on through its minute field
        var endTime := SetMinute(startTime, MinuteOf(startTime) + SlotMinutes);
        AddMinutesBySetMinute(startTime, SlotMinutes);
        var isAvailable := random(|slots|) > 0.3;
        assert startTime == TemplateStart(date, |slots|);
        slots := slots + [Availability(index * 2 + minuteIndex + 1, doctorId, startTime, endTime, isAvailable)];
        minuteIndex := minuteIndex + 1;
      }
      index := index + 1;
    }
    forall k | 0 <= k < |slots|
      ensures var s := slots[k].startTime;
        && SameDay(s, date) && HourOf(s) == StartHours[k / 2] && MinuteOf(s) == MinuteOffsets[k % 2]
        && SecondOf(s) == 0 && MilliOf(s) == 0
    {
      SetHoursFields(date, StartHours[k / 2], MinuteOffsets[k % 2], 0, 0);
    }
    forall j, k | 0 <= j < k < |slots|
      ensures slots[j].startTime.ms < slots[k].startTime.ms
    {
      TemplateStartsAscend(date, j, k);
    }
  }

  // ---------------------------------------------------------------------------
  // The mock API

  /** The test `doctor => doctor.specialtyId === specialtyId`. */
  function InSpecialty(specialtyId: int): (test: Doctor -> bool) {
    (d: Doctor) => d.specialtyId == specialtyId
  }

  /**
   * `mockAPI.getDoctors(specialtyId)`: with a truthy specialty id, the doctors
   * of that specialty in table order; with none (or 0), the whole table.
   */
  function GetDoctors(doctors: seq<Doctor>, specialtyId: Option<int>): (r: seq<Doctor>)
    ensures TruthyId(specialtyId) ==> IsSubseq(r, doctors)
    ensures TruthyId(specialtyId) ==>
      forall d :: multiset(r)[d] == if d.specialtyId == specialtyId.value then multiset(doctors)[d] else 0
    ensures !TruthyId(specialtyId) ==> r == doctors
  {
    if TruthyId(specialtyId) then
      var keep := InSpecialty(specialtyId.value);
      FilterMembers(keep, doctors);
      FilterMultiplicity(keep, doctors);
      FilterIsSubseq(keep, doctors);
      Filter(keep, doctors)
    else doctors
  }

  /** `mockAPI.getDoctor(id)`: the first doctor with that id, or undefined (None) when there is none. */
  function GetDoctor(doctors: seq<Doctor>, id: int): (r: Option<Doctor>)
    ensures r.Some? ==> r.value.id == id
    ensures r.Some? ==> exists i :: 0 <= i < |doctors| && doctors[i] == r.value
                                    && forall j :: 0 <= j < i ==> doctors[j].id != id
    ensures r.None? <==> forall d :: d in doctors ==> d.id != id
  {
    var matches := (d: Doctor) => d.id == id;
    var r := Find(matches, doctors);
    if r.Some? then FindFirst(matches, doctors); r else r
  }

  /** What `mockAPI.createAppointment` resolves to: the submitted record plus an id. */
  datatype Created<T> = Created(id: int, data: T)

  /**
   * `mockAPI.createAppointment(data)`: `Math.floor(Math.random() * 1000) + 1`
   * as the id, spread together with the submitted fields.
   */
  function CreateAppointment<T>(data: T, random: real): (r: Created<T>)
    requires 0.0 <= random < 1.0
    ensures 1 <= r.id <= 1000
    ensures r.data == data
  {
    Created((random * 1000.0).Floor + 1, data)
  }

  /** With the static table, specialty 1 lists doctors 1 and 2, in that order. */
  lemma GetDoctorsGeneralPractice()
    ensures GetDoctors(Doctors, Some(1)) == [Doctors[0], Doctors[1]]
  {
    var keep := InSpecialty(1);
    var ds := Doctors;
    assert ds[5..][1..] == [];
    assert Filter(keep, ds[5..]) == [];
    assert ds[4..][1..] == ds[5..];
    assert Filter(keep, ds[4..]) == [];
    assert ds[3..][1..] == ds[4..];
    assert Filter(keep, ds[3..]) == [];
    assert ds[2..][1..] == ds[3..];
    assert Filter(keep, ds[2..]) == [];
    assert ds[1..][1..] == ds[2..];
    assert Filter(keep, ds[1..]) == [ds[1]];
  }

  /** With the static table, doctor 3 is found and doctor 7 is not. */
  lemma GetDoctorExamples()
    ensures GetDoctor(Doctors, 3) == Some(Doctors[2])
    ensures GetDoctor(Doctors, 7) == None
  {
  }
}

=== FILE: seqs.dfy ===
/** `Array.prototype.filter` and `Array.prototype.find` over immutable sequences. */
module Seqs {
  import opened Wrappers

  /** `a` is obtained from `b` by deleting elements, without reordering the rest. */
  ghost predicate IsSubseq<T>(a: seq<T>, b: seq<T>)
    decreases |b|
  {
    |a| == 0 || (|b| > 0 && ((a[0] == b[0] && IsSubseq(a[1..], b[1..])) || IsSubseq(a, b[1..])))
  }

  /** `xs.filter(keep)`: the elements that pass, in their original order. */
  function Filter<T>(keep: T -> bool, xs: seq<T>): (r: seq<T>)
    ensures |r| <= |xs|
    decreases |xs|
  {
    if |xs| == 0 then []
    else if keep(xs[0]) then [xs[0]] + Filter(keep, xs[1..])
    else Filter(keep, xs[1..])
  }

  /** Filtering keeps exactly the elements that pass: nothing added, nothing passing dropped. */
  lemma {:induction false} FilterMembers<T>(keep: T -> bool, xs: seq<T>)
    ensures forall x :: x in Filter(keep, xs) <==> x in xs && keep(x)
    decreases |xs|
  {
    if |xs| > 0 {
      FilterMembers(keep, xs[1..]);
      assert xs == [xs[0]] + xs[1..];
    }
  }

  /** The filtered sequence is a subsequence of the input: order is kept. */
  lemma {:induction false} FilterIsSubseq<T>(keep: T -> bool, xs: seq<T>)
    ensures IsSubseq(Filter(keep, xs), xs)
    decreases |xs|
  {
    if |xs| > 0 {
      FilterIsSubseq(keep, xs[1..]);
      var r := Filter(keep, xs);
      if keep(xs[0]) {
        assert r[0] == xs[0] && r[1..] == Filter(keep, xs[1..]);
      }
    }
  }

  /**
   * Filtering keeps every passing element as many times as it occurs and drops
   * every other occurrence: with the subsequence property, this pins the result down.
   */
  lemma {:induction false} FilterMultiplicity<T>(keep: T -> bool, xs: seq<T>)
    ensures forall x :: multiset(Filter(keep, xs))[x] == if keep(x) then multiset(xs)[x] else 0
    decreases |xs|
  {
    if |xs| > 0 {
      FilterMultiplicity(keep, xs[1..]);
      assert xs == [xs[0]] + xs[1..];
      assert multiset(xs) == multiset([xs[0]]) + multiset(xs[1..]);
    }
  }

  /** The test passed by the elements that pass both `q` and `p`. */
  function Both<T>(q: T -> bool, p: T -> bool): (test: T -> bool) {
    (x: T) => q(x) && p(x)
  }

  /** Filtering twice is filtering once by both tests. */
  lemma {:induction false} FilterFuse<T>(p: T -> bool, q: T -> bool, xs: seq<T>)
    ensures Filter(p, Filter(q, xs)) == Filter(Both(q, p), xs)
    decreases |xs|
  {
    if |xs| > 0 {
      FilterFuse(p, q, xs[1..]);
    }
  }

  /** A filter that keeps everything returns its input unchanged. */
  lemma {:induction false} FilterAll<T>(keep: T -> bool, xs: seq<T>)
    requires forall x :: x in xs ==> keep(x)
    ensures Filter(keep, xs) == xs
    decreases |xs|
  {
    if |xs| > 0 {
      assert forall x :: x in xs[1..] ==> x in xs;
      FilterAll(keep, xs[1..]);
      assert [xs[0]] + xs[1..] == xs;
    }
  }

  /** `xs.find(matches)`: the first element that matches, or None when none does. */
  function Find<T>(matches: T -> bool, xs: seq<T>): (r: Option<T>)
    ensures r.Some? ==> r.value in xs && matches(r.value)
    ensures r.None? <==> forall x :: x in xs ==> !matches(x)
    decreases |xs|
  {
    if |xs| == 0 then None
    else if matches(xs[0]) then Some(xs[0])
    else
      assert forall x :: x in xs ==> x == xs[0] || x in xs[1..];
      Find(matches, xs[1..])
  }

  /** The element Find returns sits at the first matching position. */
  lemma {:induction false} FindFirst<T>(matches: T -> bool, xs: seq<T>)
    requires Find(matches, xs).Some?
    ensures exists i :: 0 <= i < |xs| && xs[i] == Find(matches, xs).value
                        && forall j :: 0 <= j < i ==> !matches(xs[j])
    decreases |xs|
  {
    if !matches(xs[0]) {
      FindFirst(matches, xs[1..]);
      var i :| 0 <= i < |xs[1..]| && xs[1..][i] == Find(matches, xs[1..]).value
               && forall j :: 0 <= j < i ==> !matches(xs[1..][j]);
      assert xs[i + 1] == Find(matches, xs).value;
      assert forall j :: 0 <= j < i + 1 ==> !matches(xs[j]) by {
        forall j | 0 <= j < i + 1 ensures !matches(xs[j]) {
          if j > 0 {
            assert xs[j] == xs[1..][j - 1];
          }
        }
      }
    } else {
      assert xs[0] == Find(matches, xs).value;
    }
  }
}

=== FILE: time.dfy ===
/**
 * Local wall-clock time as JavaScript's `Date` sees it: a count of milliseconds,
 * split into day, hour, minute, second and millisecond the way section 21.4.1 of
 * ECMA-262 defines Day, HourFromTime, MinFromTime, SecFromTime and msFromTime.
 * The time zone offset is taken to be zero, so local time and time value coincide.
 */
module Time {

  const MsPerSecond: int := 1000
  const MsPerMinute: int := 60000
  const MsPerHour: int := 3600000
  const MsPerDay: int := 86400000

  /** A valid time value, in local milliseconds since the epoch. */
  datatype Instant = At(ms: int)

  /** A `Date` object: either a valid time value or the Invalid Date that a NaN argument produces. */
  datatype JsDate = Valid(at: Instant) | Invalid

  /** Days since the epoch (ECMA-262 Day). */
  function Day(t: Instant): (d: int) { t.ms / MsPerDay }

  function HourOf(t: Instant): (h: int) { (t.ms / MsPerHour) % 24 }

  function MinuteOf(t: Instant): (m: int) { (t.ms / MsPerMinute) % 60 }

  function SecondOf(t: Instant): (s: int) { (t.ms / MsPerSecond) % 60 }

  function MilliOf(t: Instant): (milli: int) { t.ms % MsPerSecond }

  /** `getDay()`: 0 is Sunday; the epoch, 1 January 1970, was a Thursday. */
  function WeekDay(t: Instant): (wd: int) { (Day(t) + 4) % 7 }

  /** ECMA-262 MakeTime on integral arguments: out-of-range fields roll over. */
  function MakeTime(h: int, m: int, s: int, milli: int): (time: int) {
    h * MsPerHour + m * MsPerMinute + s * MsPerSecond + milli
  }

  /** ECMA-262 MakeDate. */
  function MakeDate(day: int, time: int): (t: Instant) { At(day * MsPerDay + time) }

  /** `setHours(h, m, s, ms)`: keeps the day, replaces the time of day. */
  function SetHours(t: Instant, h: int, m: int, s: int, milli: int): (r: Instant) {
    MakeDate(Day(t), MakeTime(h, m, s, milli))
  }

  /** `setHours(h)` with one argument: minutes, seconds and milliseconds are kept. */
  function SetHour(t: Instant, h: int): (r: Instant) {
    SetHours(t, h, MinuteOf(t), SecondOf(t), MilliOf(t))
  }

  /** `setMinutes(m)` with one argument: hours, seconds and milliseconds are kept. */
  function SetMinute(t: Instant, m: int): (r: Instant) {
    SetHours(t, HourOf(t), m, SecondOf(t), MilliOf(t))
  }

  /** date-fns `isSameDay`: both instants fall on the same local calendar day. */
  predicate SameDay(a: Instant, b: Instant) { Day(a) == Day(b) }

  predicate InClockRange(h: int, m: int, s: int, milli: int) {
    0 <= h < 24 && 0 <= m < 60 && 0 <= s < 60 && 0 <= milli < 1000
  }

  lemma {:induction false} MulAtLeast(k: int, n: int)
    requires n > 0 && k >= 1
    ensures k * n >= n
  {
    if k > 1 {
      MulAtLeast(k - 1, n);
    }
  }

  /** Euclidean division is unique: quotient and remainder are determined by the dividend. */
  lemma DivModUnique(a: int, n: int, q: int, r: int)
    requires n > 0 && 0 <= r < n && a == q * n + r
    ensures a / n == q && a % n == r
  {
    var q' := a / n;
    if q' > q {
      MulAtLeast(q' - q, n);
      assert false;
    } else if q' < q {
      MulAtLeast(q - q', n);
      assert false;
    }
  }

  /**
   * Reading the fields back: a time built from in-range fields has exactly
   * those fields, on the same day.
   */
  lemma FieldsOfMakeDate(d: int, h: int, m: int, s: int, milli: int)
    requires InClockRange(h, m, s, milli)
    ensures var t := MakeDate(d, MakeTime(h, m, s, milli));
      && Day(t) == d && HourOf(t) == h && MinuteOf(t) == m
      && SecondOf(t) == s && MilliOf(t) == milli
  {
    var t := MakeDate(d, MakeTime(h, m, s, milli));
    var x := t.ms;
    DivModUnique(x, MsPerDay, d, MakeTime(h, m, s, milli));
    DivModUnique(x, MsPerHour, d * 24 + h, m * MsPerMinute + s * MsPerSecond + milli);
    DivModUnique(d * 24 + h, 24, d, h);
    DivModUnique(x, MsPerMinute, (d * 24 + h) * 60 + m, s * MsPerSecond + milli);
    DivModUnique((d * 24 + h) * 60 + m, 60, d * 24 + h, m);
    DivModUnique(x, MsPerSecond, ((d * 24 + h) * 60 + m) * 60 + s, milli);
    DivModUnique(((d * 24 + h) * 60 + m) * 60 + s, 60, (d * 24 + h) * 60 + m, s);
  }

  /** Every instant is its own day plus its own fields, and those fields are in range. */
  lemma FieldsRecompose(t: Instant)
    ensures InClockRange(HourOf(t), MinuteOf(t), SecondOf(t), MilliOf(t))
    ensures t == SetHours(t, HourOf(t), MinuteOf(t), SecondOf(t), MilliOf(t))
  {
    var x := t.ms;
    var secs, mins, hours := x / MsPerSecond, x / MsPerMinute, x / MsPerHour;
    DivModUnique(x, MsPerSecond, secs, x % MsPerSecond);
    DivModUnique(x, MsPerMinute, secs / 60, (secs % 60) * MsPerSecond + x % MsPerSecond);
    DivModUnique(x, MsPerHour, mins / 60, (mins % 60) * MsPerMinute + (secs % 60) * MsPerSecond + x % MsPerSecond);
    DivModUnique(x, MsPerDay, hours / 24,
      (hours % 24) * MsPerHour + (mins % 60) * MsPerMinute + (secs % 60) * MsPerSecond + x % MsPerSecond);
  }

  /**
   * `setMinutes(getMinutes() + k)` moves the instant forward by exactly k minutes,
   * rolling over into the next hour (or day) as needed.
   */
  lemma AddMinutesBySetMinute(t: Instant, k: int)
    ensures SetMinute(t, MinuteOf(t) + k).ms == t.ms + k * MsPerMinute
  {
    FieldsRecompose(t);
  }

  /** `setHours(h, m, s, ms)` with in-range fields sets exactly those fields and keeps the day. */
  lemma SetHoursFields(t: Instant, h: int, m: int, s: int, milli: int)
    requires InClockRange(h, m, s, milli)
    ensures var u := SetHours(t, h, m, s, milli);
      && SameDay(u, t) && HourOf(u) == h && MinuteOf(u) == m
      && SecondOf(u) == s && MilliOf(u) == milli
  {
    FieldsOfMakeDate(Day(t), h, m, s, milli);
  }

  /** On one day, a later clock reading is a later instant. */
  lemma SameDayOrder(d: int, h1: int, m1: int, h2: int, m2: int)
    requires InClockRange(h1, m1, 0, 0) && InClockRange(h2, m2, 0, 0)
    ensures h1 * 60 + m1 < h2 * 60 + m2 <==>
            MakeDate(d, MakeTime(h1, m1, 0, 0)).ms < MakeDate(d, MakeTime(h2, m2, 0, 0)).ms
  {
  }
}

=== FILE: types.dfy ===
/** The records the booking UI passes around (the `Doctor`, `Specialty` and `Availability` interfaces). */
module Types {
  import opened Wrappers
  import opened Time

  datatype Specialty = Specialty(id: int, name: string, description: Option<string>)

  datatype Gender = Male | Female

  /**
   * A doctor as the listing sees one. `gender` and `hasAvailability` are optional
   * in the interface; the static table leaves both out for every doctor.
   */
  datatype Doctor = Doctor(
    id: int,
    firstName: string,
    lastName: string,
    specialtyId: int,
    specialty: Specialty,
    imageUrl: Option<string>,
    gender: Option<Gender>,
    hasAvailability: Option<bool>)

  /** One bookable slot of a doctor's day. */
  datatype Availability = Availability(
    id: int,
    doctorId: int,
    startTime: Instant,
    endTime: Instant,
    isAvailable: bool)

  datatype Status = Scheduled | Confirmed | Cancelled | Completed

  /** JavaScript truthiness of an optional number: present and non-zero. */
  predicate TruthyId(x: Option<int>) { x.Some? && x.value != 0 }

  /** JavaScript truthiness of an optional string: present and non-empty. */
  predicate TruthyText(x: Option<string>) { x.Some? && x.value != "" }
}

=== FILE: wizard.dfy ===
/**
 * The appointments page as a state machine: the selected doctor, the selected
 * date-and-time and the active tab, moved by the page's four handlers and by
 * the tab and navigation buttons the page renders.
 */
module Wizard {
  import opened Wrappers
  import opened Time
  import opened Types

  datatype Tab = SelectTab | CalendarTab | FormTab

  datatype WizardState = WizardState(doctorId: Option<int>, date: Option<Instant>, tab: Tab)

  /** No doctor, no date, on the 'select' tab. */
  const Initial: WizardState := WizardState(None, None, SelectTab)

  /** `handleDoctorSelect`: records the doctor and moves to the calendar; the date is left as it was. */
  function DoctorSelected(s: WizardState, id: int): (r: WizardState)
    ensures r.doctorId == Some(id) && r.tab == CalendarTab && r.date == s.date
  {
    s.(doctorId := Some(id), tab := CalendarTab)
  }

  /** `handleTimeSelect`: records the date and moves to the form; the doctor is left as it was. */
  function TimeSelected(s: WizardState, d: Instant): (r: WizardState)
    ensures r.date == Some(d) && r.tab == FormTab && r.doctorId == s.doctorId
  {
    s.(date := Some(d), tab := FormTab)
  }

  /** `handleCancel`: back to the calendar, keeping both selections. */
  function CancelPressed(s: WizardState): (r: WizardState)
    ensures r.tab == CalendarTab && r.doctorId == s.doctorId && r.date == s.date
  {
    s.(tab := CalendarTab)
  }

  /** `handleSuccess`: both selections cleared, back to the first tab. */
  function BookingSucceeded(s: WizardState): (r: WizardState)
    ensures r == Initial
  {
    WizardState(None, None, SelectTab)
  }

  /** The 'calendar' tab trigger is disabled without a (truthy) doctor id. */
  predicate CalendarTabEnabled(s: WizardState) { TruthyId(s.doctorId) }

  /** The 'form' tab trigger is disabled without a date. */
  predicate FormTabEnabled(s: WizardState) { s.date.Some? }

  predicate TabEnabled(s: WizardState, t: Tab) {
    match t
    case SelectTab => true
    case CalendarTab => CalendarTabEnabled(s)
    case FormTab => FormTabEnabled(s)
  }

  /** The calendar, and with it time selection, is rendered on the calendar tab when a doctor is selected. */
  predicate CalendarShown(s: WizardState) { s.tab == CalendarTab && TruthyId(s.doctorId) }

  /** The form, and with it cancel and success, is rendered on the form tab when doctor and date are both set. */
  predicate FormShown(s: WizardState) { s.tab == FormTab && TruthyId(s.doctorId) && s.date.Some? }

  /** What the user can do on the page. */
  datatype Event =
    | PickDoctor(id: int)       // a doctor chosen in the doctor list
    | PickTime(d: Instant)      // a slot clicked in the calendar
    | Cancel                    // the form's cancel button
    | Success                   // the creation went through
    | ClickTab(t: Tab)          // a tab trigger
    | Next                      // "Suivant" under the doctor list
    | Back                      // "Retour" above the calendar

  /** One event, or None when the page does not offer it in this state. */
  function Step(s: WizardState, e: Event): (r: Option<WizardState>)
    ensures r.Some? && e.PickTime? ==> CalendarShown(s)
    ensures r.Some? && (e.Cancel? || e.Success?) ==> FormShown(s)
    ensures r.Some? && e.ClickTab? ==> TabEnabled(s, e.t)
  {
    match e
    case PickDoctor(id) => if s.tab == SelectTab then Some(DoctorSelected(s, id)) else None
    case PickTime(d) => if CalendarShown(s) then Some(TimeSelected(s, d)) else None
    case Cancel => if FormShown(s) then Some(CancelPressed(s)) else None
    case Success => if FormShown(s) then Some(BookingSucceeded(s)) else None
    case ClickTab(t) => if TabEnabled(s, t) then Some(s.(tab := t)) else None
    case Next => if s.tab == SelectTab && TruthyId(s.doctorId) then Some(s.(tab := CalendarTab)) else None
    case Back => if CalendarShown(s) then Some(s.(tab := SelectTab)) else None
  }

  /** The state after a sequence of events, or None if some event was not on offer. */
  function Run(s: WizardState, events: seq<Event>): (r: Option<WizardState>)
    decreases |events|
  {
    if |events| == 0 then Some(s)
    else
      match Step(s, events[0])
      case None => None
      case Some(s') => Run(s', events[1..])
  }

  /**
   * The page's invariant: a date is only held while a doctor is, the form tab
   * is only active with a date, and the calendar tab only with a doctor.
   */
  predicate Inv(s: WizardState) {
    && (s.date.Some? ==> s.doctorId.Some?)
    && (s.tab == FormTab ==> s.date.Some?)
    && (s.tab == CalendarTab ==> s.doctorId.Some?)
  }

  lemma StepKeepsInv(s: WizardState, e: Event)
    requires Inv(s)
    ensures Step(s, e).Some? ==> Inv(Step(s, e).value)
  {
  }

  /** Every state the page can reach from its initial state satisfies the invariant. */
  lemma {:induction false} ReachableInv(s: WizardState, events: seq<Event>)
    requires Inv(s)
    ensures Run(s, events).Some? ==> Inv(Run(s, events).value)
    decreases |events|
  {
    if |events| > 0 {
      StepKeepsInv(s, events[0]);
      var next := Step(s, events[0]);
      if next.Some? {
        ReachableInv(next.value, events[1..]);
      }
    }
  }

  /** Doctor ids picked from the list are never 0 (the table numbers doctors from 1). */
  predicate NonZeroPicks(events: seq<Event>) {
    forall i :: 0 <= i < |events| && events[i].PickDoctor? ==> events[i].id != 0
  }

  /** With non-zero doctor ids, a held date or an active calendar tab always comes with a truthy doctor id. */
  predicate StrongInv(s: WizardState) {
    Inv(s) && (s.date.Some? || s.tab == CalendarTab ==> TruthyId(s.doctorId))
  }

  lemma {:induction false} ReachableStrongInv(s: WizardState, events: seq<Event>)
    requires StrongInv(s) && NonZeroPicks(events)
    ensures Run(s, events).Some? ==> StrongInv(Run(s, events).value)
    decreases |events|
  {
    if |events| > 0 {
      var next := Step(s, events[0]);
      if next.Some? {
        assert NonZeroPicks(events[1..]) by {
          forall i | 0 <= i < |events[1..]| && events[1..][i].PickDoctor?
            ensures events[1..][i].id != 0
          {
            assert events[1..][i] == events[i + 1];
          }
        }
        ReachableStrongInv(next.value, events[1..]);
      }
    }
  }

  /** With a non-zero doctor, after picking a time the form is on show. */
  lemma PickTimeShowsForm(s: WizardState, d: Instant)
    requires CalendarShown(s)
    ensures Step(s, PickTime(d)) == Some(WizardState(s.doctorId, Some(d), FormTab))
    ensures FormShown(Step(s, PickTime(d)).value)
  {
  }

  /**
   * Changing doctor keeps the time picked for the previous one: after picking
   * doctor 1 and a time, going back and picking doctor 2, the form tab is
   * enabled and the form shows doctor 2 with the time picked under doctor 1.
   */
  lemma StaleDateAfterDoctorChange(d: Instant)
    ensures var events := [PickDoctor(1), PickTime(d), ClickTab(SelectTab), PickDoctor(2), ClickTab(FormTab)];
      Run(Initial, events) == Some(WizardState(Some(2), Some(d), FormTab))
      && FormShown(Run(Initial, events).value)
  {
    var events := [PickDoctor(1), PickTime(d), ClickTab(SelectTab), PickDoctor(2), ClickTab(FormTab)];
    var s1 := WizardState(Some(1), None, CalendarTab);
    var s2 := WizardState(Some(1), Some(d), FormTab);
    var s3 := WizardState(Some(1), Some(d), SelectTab);
    var s4 := WizardState(Some(2), Some(d), CalendarTab);
    var s5 := WizardState(Some(2), Some(d), FormTab);
    assert Step(Initial, events[0]) == Some(s1);
    assert Step(s1, events[1]) == Some(s2);
    assert Step(s2, events[2]) == Some(s3);
    assert Step(s3, events[3]) == Some(s4);
    assert Step(s4, events[4]) == Some(s5);
    var e4 := [ClickTab(FormTab)];
    var e3 := [PickDoctor(2)] + e4;
    var e2 := [ClickTab(SelectTab)] + e3;
    var e1 := [PickTime(d)] + e2;
    assert events == [PickDoctor(1)] + e1;
    assert Run(s5, []) == Some(s5);
    assert Run(s4, e4) == Run(s5, e4[1..]);
    assert e4[1..] == [];
    assert Run(s3, e3) == Run(s4, e4);
    assert Run(s2, e2) == Run(s3, e3);
    assert Run(s1, e1) == Run(s2, e2);
    assert Run(Initial, events) == Run(s1, e1);
  }
}

=== FILE: wrappers.dfy ===
/** Optional values: JavaScript's `undefined`/`null` on one side, a present value on the other. */
module Wrappers {

  datatype Option<+T> = None | Some(value: T)
}
